=== FILE: README.md ===
# Filter rules of a storage source, in Dafny

This project models the filter-rule service of zfile, a file browser that serves several storage backends. Each storage source has an ordered list of filter rules. A rule has a glob expression and a mode: hidden, inaccessible or disable-download. The service does two things:

- It decides whether a file name or path is hidden, inaccessible, or blocked for download. It tests the name against the rules in order. The first rule that matches decides. Rules with an empty expression are skipped. A matcher exception counts as "no match". A user holding the `IGNORE_HIDDEN` permission bypasses every check.
- It keeps the rule table and a cache in front of it. A save replaces a source's rules in one transaction. Deleting a storage source deletes its rules. Copying a storage source copies its rules. Every read with a non-null storage id goes through a cache keyed by reader kind and storage id; a read with a null id skips the cache. Delete and save evict that source's three keys.

Modules:

- `Optional`: the nullable value (`Option`).
- `FilterConfigs`: the rule entity and the matcher's three outcomes (match, no match, throw). Also `Fires`: the rule has an expression and the matcher matched without throwing.
- `PatternTest`: `testPattern` as a function returning a `Decision`. A `Decision` holds the answer, whether the permission was asked, and which rule positions reached the matcher. Also the parent-path OR of the download check. Both are related to the declarative predicate `Blocks`.
- `RuleTable`: the table as a sequence of rows in insertion order, the mapper's queries as `Select` with a `Where` clause, and the insert loop with auto-increment ids.
- `FilterService`: the state (rows, next id, cache), the cache-aside readers, the mutations, and the three checks. Coherence of the cache is stated as a predicate: every entry equals what its query returns now. Lemmas show which operations keep it true.

The glob matcher, `FileUtils.getParentPath` and the permission lookup are parameters: a `Matcher` function, a `string -> string` function and a `bool`. Event handlers are direct calls. Reads return the new state because a cache miss stores an entry.

Two points of the code shape the model:

- `checkFileIsHidden` reads the full rule list through `findByStorageId` (`FilterConfigService.java:181`) and tests it whatever each rule's mode. No hidden-mode subset is read. `HiddenCheckUsesEveryMode` states this.
- The three cached views are the full list (base), the inaccessible subset and the disable-download subset.

## Model

| member | source | states |
|---|---|---|
| PatternTest.ScanFrom | src/main/java/im/zhaojun/zfile/module/filter/service/FilterConfigService.java:239-264 | the loop over the rules matches exactly when some rule from the start position on has a non-empty expression and a non-throwing match; the rule positions it hands to the matcher are increasing and in range |
| PatternTest.ScanTestsOnlyReachable | src/main/java/im/zhaojun/zfile/module/filter/service/FilterConfigService.java:239-262 | every rule the matcher is asked about has an expression and no firing rule comes before it; empty expressions never reach the matcher |
| PatternTest.ScanTestsAllReachable | src/main/java/im/zhaojun/zfile/module/filter/service/FilterConfigService.java:239-262 | every rule that has an expression and no firing rule before it is handed to the matcher: the loop skips nothing it should test |
| PatternTest.ScanStopsOnMatch | src/main/java/im/zhaojun/zfile/module/filter/service/FilterConfigService.java:256-258 | when the loop returns true, the last rule the matcher saw is a firing rule, so no rule after the first match is tested |
| PatternTest.TestPattern | src/main/java/im/zhaojun/zfile/module/filter/service/FilterConfigService.java:220-265 | an empty list gives false without asking for the permission; a non-empty list always asks; the bypass permission gives false and tests no rule; otherwise the answer is true iff some rule fires |
| PatternTest.TestPatternTrace | src/main/java/im/zhaojun/zfile/module/filter/service/FilterConfigService.java:239-264 | without the bypass, the rules handed to the matcher are exactly those with an expression up to and including the first firing one, visited in list order |
| PatternTest.DownloadBlocked | src/main/java/im/zhaojun/zfile/module/filter/service/FilterConfigService.java:199-204 | with an empty parent path the answer is the pattern test on the file name; otherwise it is blocked iff the file name or the parent path is blocked |
| PatternTest.ScanIgnoresTailAfterMatch | src/main/java/im/zhaojun/zfile/module/filter/service/FilterConfigService.java:239-262 | appending rules after a firing rule leaves the whole pass, including the tested positions, unchanged |
| PatternTest.FirstMatchIgnoresTail | src/main/java/im/zhaojun/zfile/module/filter/service/FilterConfigService.java:256-258 | first match wins: the decision and its trace are unchanged by anything appended after a firing rule |
| PatternTest.ScanSeesOnlyMatches | src/main/java/im/zhaojun/zfile/module/filter/service/FilterConfigService.java:249-261 | two matchers that agree on "matched or not" for every rule give the same pass |
| PatternTest.ThrowIsNoMatch | src/main/java/im/zhaojun/zfile/module/filter/service/FilterConfigService.java:249-261 | a matcher that throws is indistinguishable from one that answers no match: the scan goes on to later rules |
| PatternTest.MalformedThenMatching | src/main/java/im/zhaojun/zfile/module/filter/service/FilterConfigService.java:249-261 | a throwing rule followed by a firing rule gives true, having tested both |
| RuleTable.Select | src/main/java/im/zhaojun/zfile/module/filter/service/FilterConfigService.java:53-55 | a mapper query returns exactly the rows that satisfy its clause, no more rows than the table has |
| RuleTable.SelectSplits | src/main/java/im/zhaojun/zfile/module/filter/service/FilterConfigService.java:128 | the rows of a source and the rows of all other sources together make up the table, which gives the delete count |
| RuleTable.Insert | src/main/java/im/zhaojun/zfile/module/filter/service/FilterConfigService.java:105 | one mapper insert appends exactly one row at the end of the table with the counter's id, the row's content and owner, advances the counter by one and leaves every earlier row as it was |
| RuleTable.Stamped | src/main/java/im/zhaojun/zfile/module/filter/service/FilterConfigService.java:102-105 | each written row keeps the expression, description and mode of its config, belongs to the given source and gets the next id in turn |
| RuleTable.InsertAll | src/main/java/im/zhaojun/zfile/module/filter/service/FilterConfigService.java:102-112 | the insert loop appends the stamped configs to the table, in order, and advances the id counter by their number |
| RuleTable.InsertAllKeepsWellFormed | src/main/java/im/zhaojun/zfile/module/filter/service/FilterConfigService.java:103-105 | inserted rows get ids no existing row has, so ids stay unique |
| RuleTable.SelectKeepsWellFormed | src/main/java/im/zhaojun/zfile/module/filter/service/FilterConfigService.java:128 | the rows a delete keeps still have unique ids below the counter |
| RuleTable.SelectKeepsDistinct | src/main/java/im/zhaojun/zfile/module/filter/service/FilterConfigService.java:128 | keeping a subset of the rows, in table order, never makes two of them share an id |
| FilterService.QueryOf | src/main/java/im/zhaojun/zfile/module/filter/service/FilterConfigService.java:51-85 | the query each of the three cached readers runs on a miss selects only rows of the storage source it is asked about |
| FilterService.Fetch | src/main/java/im/zhaojun/zfile/module/filter/service/FilterConfigService.java:51-85 | what a mapper reader returns: nothing for a null storage id, otherwise exactly the rows of the table that satisfy the reader's query |
| FilterService.CachedRead | src/main/java/im/zhaojun/zfile/module/filter/service/FilterConfigService.java:51-85 | a null id bypasses the cache and reads nothing; otherwise the key holds the returned rules afterwards, only that key can be added, and no entry is changed; over a coherent cache the answer is the query's and the cache stays coherent |
| FilterService.FindByStorageId | src/main/java/im/zhaojun/zfile/module/filter/service/FilterConfigService.java:51-55 | over a coherent cache, returns exactly the rows of the source |
| FilterService.FindByStorageIdAndInaccessible | src/main/java/im/zhaojun/zfile/module/filter/service/FilterConfigService.java:66-70 | over a coherent cache, returns exactly the inaccessible-mode rows of the source |
| FilterService.FindByStorageIdAndDisableDownload | src/main/java/im/zhaojun/zfile/module/filter/service/FilterConfigService.java:81-85 | over a coherent cache, returns exactly the disable-download-mode rows of the source |
| FilterService.Evict | src/main/java/im/zhaojun/zfile/module/filter/service/FilterConfigService.java:122-126 | exactly the cache keys of the given source are gone; every other entry is kept as it was |
| FilterService.DeleteByStorageId | src/main/java/im/zhaojun/zfile/module/filter/service/FilterConfigService.java:122-131 | the source has no rules afterwards; every other source's rules are unchanged; the count is the number of rows removed; the id counter is unchanged; exactly the source's three keys are evicted |
| FilterService.BatchSave | src/main/java/im/zhaojun/zfile/module/filter/service/FilterConfigService.java:97-113 | the save commits iff the list is not null and neither the delete nor an insert of one of its configs throws; on commit the source's rules are exactly the given list in order, restamped; on any throw the table and counter are rolled back; other sources are unchanged; the source's three keys are evicted unless the delete itself throws, in which case the whole state is unchanged |
| FilterService.OnStorageSourceDelete | src/main/java/im/zhaojun/zfile/module/filter/service/FilterConfigService.java:139-151 | the deleted source has no rules, other sources are unchanged, and its cache keys are gone |
| FilterService.OnStorageSourceCopy | src/main/java/im/zhaojun/zfile/module/filter/service/FilterConfigService.java:273-289 | over a coherent cache, the new source gets the old source's rules appended in order, restamped; no other source changes; no entry is evicted, and at most the base entry of the old source is added |
| FilterService.CheckFileIsHidden | src/main/java/im/zhaojun/zfile/module/filter/service/FilterConfigService.java:180-183 | over a coherent cache, hidden iff the full rule list of the source blocks the name; the table is unchanged |
| FilterService.CheckFileIsInaccessible | src/main/java/im/zhaojun/zfile/module/filter/service/FilterConfigService.java:163-166 | over a coherent cache, inaccessible iff the inaccessible-mode rules block the path |
| FilterService.CheckFileIsDisableDownload | src/main/java/im/zhaojun/zfile/module/filter/service/FilterConfigService.java:197-205 | over a coherent cache, blocked iff the disable-download rules block the file name, or block its parent path when that path is non-empty |
| FilterService.EntriesOfOthersStayCoherent | src/main/java/im/zhaojun/zfile/module/filter/service/FilterConfigService.java:122-126 | adding or replacing rows of one source leaves the cache entries of every other source true |
| FilterService.DeleteKeepsCoherent | src/main/java/im/zhaojun/zfile/module/filter/service/FilterConfigService.java:122-131 | a delete keeps a coherent cache coherent |
| FilterService.BatchSaveKeepsCoherent | src/main/java/im/zhaojun/zfile/module/filter/service/FilterConfigService.java:97-113 | a save, committed or rolled back, keeps a coherent cache coherent |
| FilterService.CopyKeepsCoherent | src/main/java/im/zhaojun/zfile/module/filter/service/FilterConfigService.java:273-289 | a copy to a distinct source that had nothing cached keeps a coherent cache coherent |
| FilterService.CopyLeavesNewEntryStale | src/main/java/im/zhaojun/zfile/module/filter/service/FilterConfigService.java:273-289 | since the copy evicts nothing, a base entry already cached for the new source still answers and misses the copied rules |
| FilterService.ReadAfterDeleteIsEmpty | src/main/java/im/zhaojun/zfile/module/filter/service/FilterConfigService.java:122-131 | after a delete, every reader returns no rules for the source, whatever the cache held |
| FilterService.ReadAfterSaveRoundTrip | src/main/java/im/zhaojun/zfile/module/filter/service/FilterConfigService.java:97-113 | after a committed save, reading the source returns the saved list: same length and the same content in the same order |
| FilterService.ReadAfterFailedSaveKeepsRules | src/main/java/im/zhaojun/zfile/module/filter/service/FilterConfigService.java:97-113 | after a failed save, reading the source returns its previous rules; when the delete itself threw, the read is exactly the one before the save |
| FilterService.MutationsKeepWellFormed | src/main/java/im/zhaojun/zfile/module/filter/service/FilterConfigService.java:97-131 | delete, save and copy keep ids unique and below the counter |
| FilterService.CopyGetsFreshIds | src/main/java/im/zhaojun/zfile/module/filter/service/FilterConfigService.java:280-286 | the k-th copied row has the content of the old source's k-th rule, belongs to the new source, and carries an id that no row of the table before the copy has |
| RuleTable.AppendedCopyIsFresh | src/main/java/im/zhaojun/zfile/module/filter/service/FilterConfigService.java:280-286 | a row stamped by the insert loop after a well-formed table keeps its config's content, gets the target owner, and has an id unused by every existing row |
| FilterService.HiddenCheckUsesEveryMode | src/main/java/im/zhaojun/zfile/module/filter/service/FilterConfigService.java:180-183 | any firing rule of the source hides the file, whatever its mode |
| FilterService.NullStorageIdFiltersNothing | src/main/java/im/zhaojun/zfile/module/filter/service/FilterConfigService.java:51-52 | with a null storage id no rules are read, so none of the three checks filters anything |

## Left out

- `OneDriveChinaServiceImpl`: a configuration adapter made of endpoint constants and getters over a base class that is not part of this model.
- The glob semantics of `PatternMatcherUtils.testCompatibilityGlobPattern`: the matcher is a parameter with three outcomes.
- `FileUtils.getParentPath`: a `string -> string` parameter. A null parent path is folded into the empty string.
- The permission service: its answer for `IGNORE_HIDDEN` is a `bool` parameter. The service asks on every non-empty test, which the `askedPermission` field records.
- The mapper: its SQL is not part of this model. The mode-restricted queries are assumed to select on the mode column. Inserted ids are assumed to come from an auto-increment counter (`nextId`). A query with a null storage id is assumed to return no rows.
- Row order: every mapper query is assumed to return rows in insertion order, since no ordering clause is visible. `Select` keeps table order, so the "same order" results rest on this: `FilterService.BatchSave`, `FilterService.ReadAfterSaveRoundTrip`, `FilterService.OnStorageSourceCopy` and the list order that `PatternTest.TestPatternTrace` follows.
- Rolled-back ids: a rolled-back insert is assumed to give its id back, so a failed `FilterService.BatchSave` leaves `nextId` as it was. Not every auto-increment store does that; ids would then skip, but stay unique.
- Spring AOP proxying, dependency injection, logging and asynchronous event delivery: the event handlers are direct calls.
- FilterService.BatchSave: the `filterConfig` cache is assumed not to be transaction-aware, so an eviction made inside the transaction survives a rollback. The cache manager's configuration is not part of this model; with a transaction-aware cache the evictions of a rolled-back save would be dropped, and `FilterService.ReadAfterFailedSaveKeepsRules` would then read whatever was cached before.
- Mapper and permission-service exceptions outside `batchSave` are not modelled. A throwing `deleteByStorageId` (alone or from `onStorageSourceDelete`) evicts nothing and leaves the table as it was. A throwing reader stores no cache entry. A throwing permission lookup ends the check. In each case the exception reaches the caller. `FilterService.DeleteByStorageId`, `FilterService.OnStorageSourceDelete` and `FilterService.CachedRead` describe only the calls that return.
- Transactions beyond all-or-nothing: isolation and concurrent saves are not modelled. Neither is a read that repopulates the cache between an eviction and the commit.
- Errors that are not `Exception`s: they escape the matcher's catch. The model only has "throws", which is caught.
- Null values: a null storage id is modelled for the readers and checks, but not for the mutations. A null rule list handed to `testPattern` is treated as empty, as `CollectionUtils.isEmpty` does; a null list handed to `batchSave` is modelled as `None` and throws. A null expression is treated as the empty expression. A null `mode` is not modelled: `FilterMode` has no null value. In the code, a config with a null mode makes `batchSave` depend on the log level. With debug logging on, `getMode().getValue()` throws after the insert and the save rolls back; `InsertThrows(at)` stands for that throw as well as for a throwing insert. With debug logging off, and if the `mode` column accepts null, the row is stored, is in the full list and in neither mode subset, so it acts like a hidden-mode rule.
- Side effects on the caller's objects: `batchSave` sets the id and storage id on the `FilterConfig` objects passed in, and the mapper writes the generated id back into them.
- OnStorageSourceCopy: an insert failure part-way through the copy is not modelled. The copy runs outside a transaction of its own.
- FilterService.OnStorageSourceCopy: the contract on the new source's rows holds over a coherent cache. Over a stale cache, the copy duplicates whatever the cached base entry of the old source holds.

=== FILE: filter_config.dfy ===
/** The filter rule entity of a storage source and the glob matcher it is tested with. */
module FilterConfigs {
  import opened Optional

  /** What a rule governs: the `mode` column of the filter table. */
  datatype FilterMode = Hidden | Inaccessible | DisableDownload

  /** One filter rule. `id` and `storageId` are nullable in the entity: a rule
      about to be inserted carries no id yet. A null expression and the empty
      expression are told apart by nothing in the service, so both are `[]`. */
  datatype FilterConfig = FilterConfig(
    id: Option<int>,
    storageId: Option<int>,
    expression: string,
    description: string,
    mode: FilterMode)

  /** A glob test either answers or throws. */
  datatype MatchOutcome = Matched | NotMatched | Threw

  /** The glob matcher, applied as `matcher(expression, test)`. Its pattern
      semantics are not part of this model. */
  type Matcher = (string, string) -> MatchOutcome

  /** A rule fires on `test` when it has an expression and the matcher reports
      a match for it without throwing. */
  predicate Fires(rule: FilterConfig, test: string, matcher: Matcher)
  {
    rule.expression != [] && matcher(rule.expression, test) == Matched
  }

  /** The user-editable content of a rule: everything but its id and owner. */
  predicate SameContent(a: FilterConfig, b: FilterConfig)
  {
    a.expression == b.expression && a.description == b.description && a.mode == b.mode
  }
}

=== FILE: filter_service.dfy ===
/** The filter-rule service of a storage source: the cached readers, the three
    mutations of the rule table, and the hidden / inaccessible / download
    checks built on the pattern test. */
module FilterService {
  import opened Optional
  import opened FilterConfigs
  import opened RuleTable
  import opened PatternTest

  /** The three cached readers. A key of the `filterConfig` cache is one of
      them together with a storage id ('filter-base-', 'filter-inaccessible-'
      and 'filter-disable-download-' followed by the id). */
  datatype CacheKind = Base | InaccessibleOnly | DisableDownloadOnly

  datatype CacheKey = CacheKey(kind: CacheKind, storageId: int)

  /** The query each cached reader runs on a miss. */
  function QueryOf(kind: CacheKind, storageId: int): (w: Where)
    ensures ScopedTo(w, storageId)
  {
    match kind
    case Base => OfStorage(storageId)
    case InaccessibleOnly => OfStorageAndMode(storageId, Inaccessible)
    case DisableDownloadOnly => OfStorageAndMode(storageId, DisableDownload)
  }

  /** The filter table, its id counter, and the cache in front of it. */
  datatype State = State(rows: seq<FilterConfig>, nextId: int, cache: map<CacheKey, seq<FilterConfig>>)

  /** What the mapper returns for a reader. A null storage id selects nothing,
      since `storage_id = NULL` holds of no row. */
  function Fetch(rows: seq<FilterConfig>, kind: CacheKind, storageId: Option<int>): (r: seq<FilterConfig>)
    ensures storageId.None? ==> r == []
    ensures forall x :: x in r <==> storageId.Some? && x in rows && Holds(QueryOf(kind, storageId.value), x)
  {
    if storageId.None? then [] else Select(rows, QueryOf(kind, storageId.value))
  }

  /** Every cache entry is what its query would return now. */
  ghost predicate Coherent(st: State)
  {
    forall k :: k in st.cache ==> st.cache[k] == Select(st.rows, QueryOf(k.kind, k.storageId))
  }

  ghost predicate WellFormedState(st: State)
  {
    WellFormed(st.rows, st.nextId)
  }

  datatype Fetched = Fetched(rules: seq<FilterConfig>, state: State)

  /** A cache-aside read. With a null id the cache condition fails: the query
      runs and nothing is stored. Otherwise a hit returns the entry, and a miss
      runs the query and stores its result under the key. */
  function CachedRead(st: State, kind: CacheKind, storageId: Option<int>): (r: Fetched)
    ensures r.state.rows == st.rows && r.state.nextId == st.nextId
    ensures storageId.None? ==> r.rules == [] && r.state == st
    ensures storageId.Some? ==>
      var key := CacheKey(kind, storageId.value);
      key in r.state.cache && r.state.cache[key] == r.rules
      && r.state.cache.Keys == st.cache.Keys + {key}
    ensures forall k :: k in st.cache ==> r.state.cache[k] == st.cache[k]
    ensures Coherent(st) ==> r.rules == Fetch(st.rows, kind, storageId) && Coherent(r.state)
  {
    if storageId.None? then
      Fetched(Fetch(st.rows, kind, storageId), st)
    else
      var key := CacheKey(kind, storageId.value);
      if key in st.cache then
        Fetched(st.cache[key], st)
      else
        var rules := Fetch(st.rows, kind, storageId);
        Fetched(rules, st.(cache := st.cache[key := rules]))
  }

  /** All rules of a storage source, cached under 'filter-base-' + id. */
  function FindByStorageId(st: State, storageId: Option<int>): (r: Fetched)
    ensures Coherent(st) ==> forall x :: x in r.rules <==>
      storageId.Some? && x in st.rows && x.storageId == storageId
  {
    CachedRead(st, Base, storageId)
  }

  /** The inaccessible-mode rules, cached under 'filter-inaccessible-' + id. */
  function FindByStorageIdAndInaccessible(st: State, storageId: Option<int>): (r: Fetched)
    ensures Coherent(st) ==> forall x :: x in r.rules <==>
      storageId.Some? && x in st.rows && x.storageId == storageId && x.mode == Inaccessible
  {
    CachedRead(st, InaccessibleOnly, storageId)
  }

  /** The disable-download-mode rules, cached under 'filter-disable-download-' + id. */
  function FindByStorageIdAndDisableDownload(st: State, storageId: Option<int>): (r: Fetched)
    ensures Coherent(st) ==> forall x :: x in r.rules <==>
      storageId.Some? && x in st.rows && x.storageId == storageId && x.mode == DisableDownload
  {
    CachedRead(st, DisableDownloadOnly, storageId)
  }

  /** The three evictions on `deleteByStorageId`. */
  function Evict(cache: map<CacheKey, seq<FilterConfig>>, storageId: int): (c: map<CacheKey, seq<FilterConfig>>)
    ensures forall k :: k in c <==> k in cache && k.storageId != storageId
    ensures forall k :: k in c ==> c[k] == cache[k]
  {
    assert forall k: CacheKey :: k.storageId == storageId ==>
      k.kind.Base? || k.kind.InaccessibleOnly? || k.kind.DisableDownloadOnly?;
    cache - {CacheKey(Base, storageId), CacheKey(InaccessibleOnly, storageId), CacheKey(DisableDownloadOnly, storageId)}
  }

  datatype Deleted = Deleted(count: nat, state: State)

  /** Removes every rule of the storage source, returns how many there were,
      and evicts the source's three cache entries. */
  function DeleteByStorageId(st: State, storageId: int): (r: Deleted)
    ensures Select(r.state.rows, OfStorage(storageId)) == []
    ensures forall t :: t != storageId ==> Select(r.state.rows, OfStorage(t)) == Select(st.rows, OfStorage(t))
    ensures r.count == |Select(st.rows, OfStorage(storageId))|
    ensures r.count + |r.state.rows| == |st.rows|
    ensures r.state.nextId == st.nextId
    ensures forall k :: k in r.state.cache <==> k in st.cache && k.storageId != storageId
    ensures forall k :: k in r.state.cache ==> r.state.cache[k] == st.cache[k]
  {
    var kept := Select(st.rows, NotOfStorage(storageId));
    SelectSplits(st.rows, storageId);
    SelectNone(kept, OfStorage(storageId));
    forall t | t != storageId
      ensures Select(kept, OfStorage(t)) == Select(st.rows, OfStorage(t))
    {
      OtherStorageUntouched(st.rows, storageId, [], OfStorage(t), t);
      assert kept + [] == kept;
    }
    Deleted(|st.rows| - |kept|, State(kept, st.nextId, Evict(st.cache, storageId)))
  }

  datatype Saved = Saved(committed: bool, state: State)

  /** Where a save can throw: in the inner delete, or at the config at
      position `at` of the list, in its insert or in the debug log line after
      it. */
  datatype SaveFault = NoFault | DeleteThrows | InsertThrows(at: nat)

  /** Replaces the rules of a storage source by `configs`, in one transaction.
      A null list (`None`) throws when its size is taken, after the inner
      delete has returned. Any throw rolls the table back. The evictions happen
      when the inner delete returns, so they stay after a later throw, and
      none happens when the delete itself throws. */
  function BatchSave(st: State, storageId: int, configs: Option<seq<FilterConfig>>, fault: SaveFault): (r: Saved)
    ensures r.committed <==>
      configs.Some? && !fault.DeleteThrows? && !(fault.InsertThrows? && fault.at < |configs.value|)
    ensures r.committed ==> Select(r.state.rows, OfStorage(storageId)) == Stamped(configs.value, storageId, st.nextId)
    ensures r.committed ==> r.state.nextId == st.nextId + |configs.value|
    ensures !r.committed ==> r.state.rows == st.rows && r.state.nextId == st.nextId
    ensures fault.DeleteThrows? ==> r.state == st
    ensures forall t :: t != storageId ==> Select(r.state.rows, OfStorage(t)) == Select(st.rows, OfStorage(t))
    ensures !fault.DeleteThrows? ==> forall k :: k in r.state.cache <==> k in st.cache && k.storageId != storageId
    ensures forall k :: k in r.state.cache ==> r.state.cache[k] == st.cache[k]
  {
    if fault.DeleteThrows? then
      Saved(false, st)
    else
      var cleared := DeleteByStorageId(st, storageId).state;
      if configs.None? || (fault.InsertThrows? && fault.at < |configs.value|) then
        Saved(false, st.(cache := cleared.cache))
      else
        var ins := InsertAll(cleared.rows, cleared.nextId, storageId, configs.value);
        var added := Stamped(configs.value, storageId, st.nextId);
        SelectAppend(cleared.rows, added, OfStorage(storageId));
        SelectAll(added, OfStorage(storageId));
        forall t | t != storageId
          ensures Select(ins.rows, OfStorage(t)) == Select(st.rows, OfStorage(t))
        {
          OtherStorageUntouched(st.rows, storageId, added, OfStorage(t), t);
        }
        Saved(true, cleared.(rows := ins.rows, nextId := ins.nextId))
  }

  /** Reaction to a storage source being deleted: its rules go with it. */
  function OnStorageSourceDelete(st: State, storageId: int): (r: State)
    ensures Select(r.rows, OfStorage(storageId)) == []
    ensures forall t :: t != storageId ==> Select(r.rows, OfStorage(t)) == Select(st.rows, OfStorage(t))
    ensures r.nextId == st.nextId
    ensures forall k :: k in r.cache <==> k in st.cache && k.storageId != storageId
    ensures forall k :: k in r.cache ==> r.cache[k] == st.cache[k]
  {
    DeleteByStorageId(st, storageId).state
  }

  /** Reaction to a storage source being copied: the rules of `fromId`, read
      through the cache, are inserted again for `newId` in the same order. No
      cache entry is evicted. */
  function OnStorageSourceCopy(st: State, fromId: int, newId: int): (r: State)
    ensures Coherent(st) ==>
      Select(r.rows, OfStorage(newId))
      == Select(st.rows, OfStorage(newId)) + Stamped(Select(st.rows, OfStorage(fromId)), newId, st.nextId)
    ensures Coherent(st) ==> r.rows == st.rows + Stamped(Select(st.rows, OfStorage(fromId)), newId, st.nextId)
    ensures forall t :: t != newId ==> Select(r.rows, OfStorage(t)) == Select(st.rows, OfStorage(t))
    ensures forall k :: k in st.cache ==> k in r.cache && r.cache[k] == st.cache[k]
    ensures r.cache.Keys == st.cache.Keys + {CacheKey(Base, fromId)}
  {
    var read := FindByStorageId(st, Some(fromId));
    var ins := InsertAll(st.rows, st.nextId, newId, read.rules);
    var added := Stamped(read.rules, newId, st.nextId);
    SelectAppend(st.rows, added, OfStorage(newId));
    SelectAll(added, OfStorage(newId));
    forall t | t != newId
      ensures Select(ins.rows, OfStorage(t)) == Select(st.rows, OfStorage(t))
    {
      SelectAppend(st.rows, added, OfStorage(t));
      SelectNone(added, OfStorage(t));
    }
    read.state.(rows := ins.rows, nextId := ins.nextId)
  }

  datatype Checked = Checked(verdict: bool, state: State)

  /** Whether a file name is hidden. The full rule list of the source is used,
      whatever the mode of each rule. */
  function CheckFileIsHidden(st: State, storageId: Option<int>, fileName: string,
                             ignoreHidden: bool, matcher: Matcher): (r: Checked)
    ensures r.state.rows == st.rows && r.state.nextId == st.nextId
    ensures Coherent(st) ==> Coherent(r.state)
    ensures Coherent(st) ==> (r.verdict <==> Blocks(Fetch(st.rows, Base, storageId), fileName, ignoreHidden, matcher))
  {
    var read := FindByStorageId(st, storageId);
    Checked(TestPattern(read.rules, fileName, ignoreHidden, matcher).result, read.state)
  }

  /** Whether a path may not be accessed, by the inaccessible-mode rules. */
  function CheckFileIsInaccessible(st: State, storageId: Option<int>, path: string,
                                   ignoreHidden: bool, matcher: Matcher): (r: Checked)
    ensures r.state.rows == st.rows && r.state.nextId == st.nextId
    ensures Coherent(st) ==> Coherent(r.state)
    ensures Coherent(st) ==> (r.verdict <==> Blocks(Fetch(st.rows, InaccessibleOnly, storageId), path, ignoreHidden, matcher))
  {
    var read := FindByStorageIdAndInaccessible(st, storageId);
    Checked(TestPattern(read.rules, path, ignoreHidden, matcher).result, read.state)
  }

  /** Whether a file may not be downloaded, by the disable-download rules
      tested on the file name and on its parent path. */
  function CheckFileIsDisableDownload(st: State, storageId: Option<int>, fileName: string,
                                      parentPath: string -> string,
                                      ignoreHidden: bool, matcher: Matcher): (r: Checked)
    ensures r.state.rows == st.rows && r.state.nextId == st.nextId
    ensures Coherent(st) ==> Coherent(r.state)
    ensures Coherent(st) ==> (r.verdict <==>
            Blocks(Fetch(st.rows, DisableDownloadOnly, storageId), fileName, ignoreHidden, matcher)
            || (parentPath(fileName) != []
                && Blocks(Fetch(st.rows, DisableDownloadOnly, storageId), parentPath(fileName), ignoreHidden, matcher)))
  {
    var read := FindByStorageIdAndDisableDownload(st, storageId);
    Checked(DownloadBlocked(read.rules, fileName, parentPath(fileName), ignoreHidden, matcher), read.state)
  }

  /** Rows added for storage source `s` leave every cache entry of another
      source coherent. */
  lemma EntriesOfOthersStayCoherent(st: State, rows': seq<FilterConfig>, s: int, added: seq<FilterConfig>,
                                    cache': map<CacheKey, seq<FilterConfig>>)
    requires Coherent(st)
    requires rows' == Select(st.rows, NotOfStorage(s)) + added || rows' == st.rows + added
    requires forall x :: x in added ==> x.storageId == Some(s)
    requires forall k :: k in cache' ==> k in st.cache && k.storageId != s && cache'[k] == st.cache[k]
    ensures Coherent(State(rows', st.nextId, cache'))
  {
    forall k | k in cache'
      ensures cache'[k] == Select(rows', QueryOf(k.kind, k.storageId))
    {
      var w := QueryOf(k.kind, k.storageId);
      if rows' == Select(st.rows, NotOfStorage(s)) + added {
        OtherStorageUntouched(st.rows, s, added, w, k.storageId);
      } else {
        SelectAppend(st.rows, added, w);
        SelectNone(added, w);
      }
    }
  }

  /** Deleting a source's rules keeps every remaining cache entry true. */
  lemma DeleteKeepsCoherent(st: State, storageId: int)
    requires Coherent(st)
    ensures Coherent(DeleteByStorageId(st, storageId).state)
  {
    var r := DeleteByStorageId(st, storageId).state;
    assert r.rows == Select(st.rows, NotOfStorage(storageId)) + [];
    EntriesOfOthersStayCoherent(st, r.rows, storageId, [], r.cache);
  }

  /** Saving, committed or rolled back, keeps every remaining cache entry true. */
  lemma BatchSaveKeepsCoherent(st: State, storageId: int, configs: Option<seq<FilterConfig>>, fault: SaveFault)
    requires Coherent(st)
    ensures Coherent(BatchSave(st, storageId, configs, fault).state)
  {
    var r := BatchSave(st, storageId, configs, fault).state;
    if fault.DeleteThrows? {
    } else if r.rows == st.rows {
      assert r.rows == st.rows + [];
      EntriesOfOthersStayCoherent(st, r.rows, storageId, [], r.cache);
    } else {
      var added := Stamped(configs.value, storageId, st.nextId);
      assert r.rows == Select(st.rows, NotOfStorage(storageId)) + added;
      EntriesOfOthersStayCoherent(st, r.rows, storageId, added, r.cache);
    }
  }

  /** Copying keeps the cache true as long as nothing was cached for the new
      source before. */
  lemma CopyKeepsCoherent(st: State, fromId: int, newId: int)
    requires Coherent(st)
    requires fromId != newId
    requires forall k :: k in st.cache ==> k.storageId != newId
    ensures Coherent(OnStorageSourceCopy(st, fromId, newId))
  {
    var read := FindByStorageId(st, Some(fromId));
    var r := OnStorageSourceCopy(st, fromId, newId);
    var added := Stamped(read.rules, newId, st.nextId);
    assert r.rows == st.rows + added;
    EntriesOfOthersStayCoherent(read.state, r.rows, newId, added, r.cache);
  }

  /** The copy evicts nothing: an entry cached for the new source before the
      copy still answers afterwards and misses the copied rules. */
  lemma CopyLeavesNewEntryStale(st: State, fromId: int, newId: int)
    requires Coherent(st)
    requires fromId != newId
    requires CacheKey(Base, newId) in st.cache
    requires Select(st.rows, OfStorage(fromId)) != []
    ensures var after := OnStorageSourceCopy(st, fromId, newId);
      FindByStorageId(after, Some(newId)).rules != Select(after.rows, OfStorage(newId))
  {
  }

  /** After a delete, the source reads as empty, whatever was cached. */
  lemma ReadAfterDeleteIsEmpty(st: State, storageId: int, kind: CacheKind)
    ensures CachedRead(DeleteByStorageId(st, storageId).state, kind, Some(storageId)).rules == []
  {
    var r := DeleteByStorageId(st, storageId).state;
    SelectNarrow(r.rows, OfStorage(storageId), QueryOf(kind, storageId));
  }

  /** After a committed save, the source reads back exactly the saved list,
      whatever was cached. */
  lemma ReadAfterSaveRoundTrip(st: State, storageId: int, configs: Option<seq<FilterConfig>>, fault: SaveFault)
    requires BatchSave(st, storageId, configs, fault).committed
    ensures var rules := FindByStorageId(BatchSave(st, storageId, configs, fault).state, Some(storageId)).rules;
      |rules| == |configs.value|
      && forall k :: 0 <= k < |rules| ==> SameContent(rules[k], configs.value[k]) && rules[k].storageId == Some(storageId)
  {
  }

  /** After a failed save, the source reads back its previous rules, whatever
      was cached, unless the inner delete threw: then nothing was evicted and
      the read is the one before the save. */
  lemma ReadAfterFailedSaveKeepsRules(st: State, storageId: int, configs: Option<seq<FilterConfig>>, fault: SaveFault)
    requires !BatchSave(st, storageId, configs, fault).committed
    ensures !fault.DeleteThrows? ==>
      FindByStorageId(BatchSave(st, storageId, configs, fault).state, Some(storageId)).rules
      == Select(st.rows, OfStorage(storageId))
    ensures fault.DeleteThrows? ==>
      FindByStorageId(BatchSave(st, storageId, configs, fault).state, Some(storageId))
      == FindByStorageId(st, Some(storageId))
  {
  }

  /** Ids stay unique under every mutation. */
  lemma MutationsKeepWellFormed(st: State, storageId: int, configs: Option<seq<FilterConfig>>, fault: SaveFault, fromId: int)
    requires WellFormedState(st)
    ensures WellFormedState(DeleteByStorageId(st, storageId).state)
    ensures WellFormedState(BatchSave(st, storageId, configs, fault).state)
    ensures WellFormedState(OnStorageSourceCopy(st, fromId, storageId))
  {
    var kept := Select(st.rows, NotOfStorage(storageId));
    SelectKeepsWellFormed(st.rows, st.nextId, NotOfStorage(storageId));
    if configs.Some? {
      InsertAllKeepsWellFormed(kept, st.nextId, storageId, configs.value);
    }
    var read := FindByStorageId(st, Some(fromId));
    InsertAllKeepsWellFormed(st.rows, st.nextId, storageId, read.rules);
  }

  /** The copies get ids no existing row has. */
  lemma CopyGetsFreshIds(st: State, fromId: int, newId: int, k: int)
    requires WellFormedState(st)
    requires Coherent(st)
    requires 0 <= k < |Select(st.rows, OfStorage(fromId))|
    ensures var after := OnStorageSourceCopy(st, fromId, newId).rows;
      && |after| == |st.rows| + |Select(st.rows, OfStorage(fromId))|
      && SameContent(after[|st.rows| + k], Select(st.rows, OfStorage(fromId))[k])
      && after[|st.rows| + k].storageId == Some(newId)
      && forall x :: x in st.rows ==> x.id != after[|st.rows| + k].id
  {
    AppendedCopyIsFresh(st.rows, st.nextId, Select(st.rows, OfStorage(fromId)), newId, k);
  }

  /** The hidden check reads the full rule list: a firing rule hides the file
      whatever its mode, a disable-download rule included. */
  lemma HiddenCheckUsesEveryMode(st: State, storageId: int, fileName: string, matcher: Matcher, rule: FilterConfig)
    requires Coherent(st)
    requires rule in st.rows && rule.storageId == Some(storageId)
    requires Fires(rule, fileName, matcher)
    ensures CheckFileIsHidden(st, Some(storageId), fileName, false, matcher).verdict
  {
  }

  /** A null storage id reads no rules, so nothing is filtered. */
  lemma NullStorageIdFiltersNothing(st: State, name: string, parentPath: string -> string,
                                    ignoreHidden: bool, matcher: Matcher)
    ensures !CheckFileIsHidden(st, None, name, ignoreHidden, matcher).verdict
    ensures !CheckFileIsInaccessible(st, None, name, ignoreHidden, matcher).verdict
    ensures !CheckFileIsDisableDownload(st, None, name, parentPath, ignoreHidden, matcher).verdict
  {
  }
}

=== FILE: optional.dfy ===
/** A nullable value: the model's stand-in for a Java reference that may be null. */
module Optional {

  datatype Option<+T> = None | Some(value: T)
}

=== FILE: pattern_test.dfy ===
/** The visibility decision procedure: one ordered rule list tested against one
    string, under the caller's bypass permission. */
module PatternTest {
  import opened FilterConfigs

  /** No rule at a position in [from, upto) fires on `test`. */
  ghost predicate NoneFires(rules: seq<FilterConfig>, test: string, matcher: Matcher, from: int, upto: int)
  {
    forall k :: from <= k < upto && 0 <= k < |rules| ==> !Fires(rules[k], test, matcher)
  }

  ghost predicate Increasing(s: seq<nat>)
  {
    forall a, b :: 0 <= a < b < |s| ==> s[a] < s[b]
  }

  /** The declarative reading of the decision: the bypass is not held and some
      rule of the list fires. */
  ghost predicate Blocks(rules: seq<FilterConfig>, test: string, ignoreHidden: bool, matcher: Matcher)
  {
    !ignoreHidden && exists k :: 0 <= k < |rules| && Fires(rules[k], test, matcher)
  }

  /** What a pass over the rule list did: whether it stopped on a match, and the
      positions of the rules it handed to the matcher, in order. */
  datatype Scan = Scan(matched: bool, tested: seq<nat>)

  /** The loop over the rule list from position `from` on: a rule without an
      expression is skipped, a throwing matcher counts as no match, and the
      first match ends the loop. */
  function ScanFrom(rules: seq<FilterConfig>, test: string, matcher: Matcher, from: nat): (r: Scan)
    requires from <= |rules|
    ensures r.matched <==> exists k :: from <= k < |rules| && Fires(rules[k], test, matcher)
    ensures forall i :: 0 <= i < |r.tested| ==> from <= r.tested[i] < |rules|
    ensures Increasing(r.tested)
    decreases |rules| - from
  {
    if from == |rules| then
      Scan(false, [])
    else if rules[from].expression == [] then
      ScanFrom(rules, test, matcher, from + 1)
    else if matcher(rules[from].expression, test) == Matched then
      Scan(true, [from])
    else
      var rest := ScanFrom(rules, test, matcher, from + 1);
      Scan(rest.matched, [from] + rest.tested)
  }

  /** Extending the range [from + 1, upto) by one rule at the front. */
  lemma NoneFiresStep(rules: seq<FilterConfig>, test: string, matcher: Matcher, from: nat, upto: int)
    requires from < |rules| && from < upto
    ensures NoneFires(rules, test, matcher, from, upto)
        <==> !Fires(rules[from], test, matcher) && NoneFires(rules, test, matcher, from + 1, upto)
  {
  }

  /** The matcher only sees rules that have an expression and are not preceded
      by a firing rule. */
  lemma {:induction false} ScanTestsOnlyReachable(rules: seq<FilterConfig>, test: string, matcher: Matcher, from: nat)
    requires from <= |rules|
    ensures forall j :: j in ScanFrom(rules, test, matcher, from).tested ==>
      rules[j].expression != [] && NoneFires(rules, test, matcher, from, j)
    decreases |rules| - from
  {
    if from < |rules| && !Fires(rules[from], test, matcher) {
      ScanTestsOnlyReachable(rules, test, matcher, from + 1);
      var rest := ScanFrom(rules, test, matcher, from + 1);
      forall j | j in rest.tested
        ensures NoneFires(rules, test, matcher, from, j)
      {
        NoneFiresStep(rules, test, matcher, from, j);
      }
    }
  }

  /** The matcher sees every rule that has an expression and is not preceded
      by a firing rule. */
  lemma {:induction false} ScanTestsAllReachable(rules: seq<FilterConfig>, test: string, matcher: Matcher, from: nat)
    requires from <= |rules|
    ensures forall j :: from <= j < |rules| && rules[j].expression != [] && NoneFires(rules, test, matcher, from, j) ==>
      j in ScanFrom(rules, test, matcher, from).tested
    decreases |rules| - from
  {
    if from < |rules| && !Fires(rules[from], test, matcher) {
      ScanTestsAllReachable(rules, test, matcher, from + 1);
      forall j | from < j < |rules| && rules[j].expression != [] && NoneFires(rules, test, matcher, from, j)
        ensures j in ScanFrom(rules, test, matcher, from).tested
      {
        NoneFiresStep(rules, test, matcher, from, j);
      }
    }
  }

  /** A pass that matched stopped on the rule it matched: the last rule the
      matcher saw is a firing one. */
  lemma {:induction false} ScanStopsOnMatch(rules: seq<FilterConfig>, test: string, matcher: Matcher, from: nat)
    requires from <= |rules|
    ensures var r := ScanFrom(rules, test, matcher, from);
      r.matched ==> |r.tested| > 0 && Fires(rules[r.tested[|r.tested| - 1]], test, matcher)
    decreases |rules| - from
  {
    if from < |rules| && !Fires(rules[from], test, matcher) {
      ScanStopsOnMatch(rules, test, matcher, from + 1);
      var rest := ScanFrom(rules, test, matcher, from + 1);
      if rules[from].expression != [] && rest.matched {
        assert ([from] + rest.tested)[|rest.tested|] == rest.tested[|rest.tested| - 1];
      }
    }
  }

  /** The outcome of one pattern test: the answer, whether the permission
      service was asked, and the positions of the rules the matcher saw. */
  datatype Decision = Decision(result: bool, askedPermission: bool, tested: seq<nat>)

  /** An empty list filters nothing and is decided before the permission is
      looked up; the bypass permission filters nothing; otherwise the rules are
      scanned in order. */
  function TestPattern(rules: seq<FilterConfig>, test: string, ignoreHidden: bool, matcher: Matcher): (d: Decision)
    ensures d.result <==> Blocks(rules, test, ignoreHidden, matcher)
    ensures d.askedPermission <==> rules != []
    ensures ignoreHidden || rules == [] ==> !d.result && d.tested == []
  {
    if rules == [] then
      Decision(false, false, [])
    else if ignoreHidden then
      Decision(false, true, [])
    else
      var s := ScanFrom(rules, test, matcher, 0);
      Decision(s.matched, true, s.tested)
  }

  /** Which rules a pattern test hands to the matcher: without the bypass,
      exactly those with an expression up to the first firing one, in list
      order. */
  lemma TestPatternTrace(rules: seq<FilterConfig>, test: string, ignoreHidden: bool, matcher: Matcher)
    ensures var d := TestPattern(rules, test, ignoreHidden, matcher);
      && (!ignoreHidden ==> forall j: nat :: j in d.tested <==>
            j < |rules| && rules[j].expression != [] && NoneFires(rules, test, matcher, 0, j))
      && Increasing(d.tested)
  {
    if rules != [] && !ignoreHidden {
      var s := ScanFrom(rules, test, matcher, 0);
      assert TestPattern(rules, test, ignoreHidden, matcher) == Decision(s.matched, true, s.tested);
      ScanTestsOnlyReachable(rules, test, matcher, 0);
      ScanTestsAllReachable(rules, test, matcher, 0);
    }
  }

  /** The disable-download test: the file name, or else its parent path when
      that path is not empty. An empty parent path leaves the file name's
      answer alone. */
  function DownloadBlocked(rules: seq<FilterConfig>, fileName: string, parentPath: string,
                           ignoreHidden: bool, matcher: Matcher): (b: bool)
    ensures b <==> Blocks(rules, fileName, ignoreHidden, matcher)
                   || (parentPath != [] && Blocks(rules, parentPath, ignoreHidden, matcher))
  {
    if parentPath == [] then
      TestPattern(rules, fileName, ignoreHidden, matcher).result
    else
      TestPattern(rules, fileName, ignoreHidden, matcher).result
      || TestPattern(rules, parentPath, ignoreHidden, matcher).result
  }

  /** Rules after a firing one are never reached: appending to the list leaves
      the whole pass unchanged. */
  lemma {:induction false} ScanIgnoresTailAfterMatch(rules: seq<FilterConfig>, extra: seq<FilterConfig>,
                                                     test: string, matcher: Matcher, from: nat)
    requires from <= |rules|
    requires exists k :: from <= k < |rules| && Fires(rules[k], test, matcher)
    ensures ScanFrom(rules + extra, test, matcher, from) == ScanFrom(rules, test, matcher, from)
    decreases |rules| - from
  {
    var all := rules + extra;
    assert all[from] == rules[from];
    if rules[from].expression == [] || matcher(rules[from].expression, test) != Matched {
      var k :| from <= k < |rules| && Fires(rules[k], test, matcher);
      assert k != from;
      ScanIgnoresTailAfterMatch(rules, extra, test, matcher, from + 1);
    }
  }

  /** First match wins: whatever follows a firing rule changes neither the
      answer nor which rules the matcher is asked about. */
  lemma FirstMatchIgnoresTail(rules: seq<FilterConfig>, extra: seq<FilterConfig>,
                              test: string, ignoreHidden: bool, matcher: Matcher)
    requires exists k :: 0 <= k < |rules| && Fires(rules[k], test, matcher)
    ensures TestPattern(rules + extra, test, ignoreHidden, matcher) == TestPattern(rules, test, ignoreHidden, matcher)
  {
    if !ignoreHidden {
      ScanIgnoresTailAfterMatch(rules, extra, test, matcher, 0);
    }
  }

  /** The matcher only matters through "matched or not": two matchers that
      agree on that for every rule give the same pass, so a throw is exactly a
      non-match that lets the scan go on. */
  lemma {:induction false} ScanSeesOnlyMatches(rules: seq<FilterConfig>, test: string,
                                               m1: Matcher, m2: Matcher, from: nat)
    requires from <= |rules|
    requires forall k :: 0 <= k < |rules| ==>
      (m1(rules[k].expression, test) == Matched <==> m2(rules[k].expression, test) == Matched)
    ensures ScanFrom(rules, test, m1, from) == ScanFrom(rules, test, m2, from)
    decreases |rules| - from
  {
    if from < |rules| {
      ScanSeesOnlyMatches(rules, test, m1, m2, from + 1);
    }
  }

  /** Two matchers that agree on "matched or not" for every rule give the same
      decision, so a throw acts exactly as a non-match. */
  lemma ThrowIsNoMatch(rules: seq<FilterConfig>, test: string, ignoreHidden: bool, m1: Matcher, m2: Matcher)
    requires forall k :: 0 <= k < |rules| ==>
      (m1(rules[k].expression, test) == Matched <==> m2(rules[k].expression, test) == Matched)
    ensures TestPattern(rules, test, ignoreHidden, m1) == TestPattern(rules, test, ignoreHidden, m2)
  {
    ScanSeesOnlyMatches(rules, test, m1, m2, 0);
  }

  /** A malformed rule followed by a matching one: the throw is passed over and
      the second rule decides. */
  lemma MalformedThenMatching(bad: FilterConfig, good: FilterConfig, test: string, matcher: Matcher)
    requires bad.expression != [] && matcher(bad.expression, test) == Threw
    requires Fires(good, test, matcher)
    ensures TestPattern([bad, good], test, false, matcher) == Decision(true, true, [0, 1])
  {
    var rules := [bad, good];
    assert ScanFrom(rules, test, matcher, 1) == Scan(true, [1]);
  }
}

=== FILE: rule_table.dfy ===
/** The filter table as the mapper sees it: rows in insertion order, the
    queries the service issues over them, and the insert loop. */
module RuleTable {
  import opened Optional
  import opened FilterConfigs

  /** The WHERE clauses the mapper runs. The two mode-restricted reader
      queries are taken to select on the `mode` column. */
  datatype Where =
    | OfStorage(storageId: int)
    | OfStorageAndMode(storageId: int, mode: FilterMode)
    | NotOfStorage(storageId: int)

  predicate Holds(w: Where, row: FilterConfig)
  {
    match w
    case OfStorage(s) => row.storageId == Some(s)
    case OfStorageAndMode(s, m) => row.storageId == Some(s) && row.mode == m
    case NotOfStorage(s) => row.storageId != Some(s)
  }

  /** A clause that only selects rows of storage source `s`. */
  predicate ScopedTo(w: Where, s: int)
  {
    (w.OfStorage? || w.OfStorageAndMode?) && w.storageId == s
  }

  /** The rows satisfying `w`, in table order. */
  function Select(rows: seq<FilterConfig>, w: Where): (r: seq<FilterConfig>)
    ensures |r| <= |rows|
    ensures forall x :: x in r <==> x in rows && Holds(w, x)
    decreases |rows|
  {
    if rows == [] then
      []
    else
      var init := rows[..|rows| - 1];
      var last := rows[|rows| - 1];
      assert rows == init + [last];
      var r := Select(init, w);
      if Holds(w, last) then r + [last] else r
  }

  lemma {:induction false} SelectAppend(a: seq<FilterConfig>, b: seq<FilterConfig>, w: Where)
    ensures Select(a + b, w) == Select(a, w) + Select(b, w)
    decreases |b|
  {
    if b == [] {
      assert a + b == a;
    } else {
      var b' := b[..|b| - 1];
      assert (a + b)[..|a + b| - 1] == a + b';
      assert (a + b)[|a + b| - 1] == b[|b| - 1];
      SelectAppend(a, b', w);
    }
  }

  lemma SelectNone(rows: seq<FilterConfig>, w: Where)
    requires forall x :: x in rows ==> !Holds(w, x)
    ensures Select(rows, w) == []
  {
  }

  lemma {:induction false} SelectAll(rows: seq<FilterConfig>, w: Where)
    requires forall x :: x in rows ==> Holds(w, x)
    ensures Select(rows, w) == rows
    decreases |rows|
  {
    if rows != [] {
      var init := rows[..|rows| - 1];
      assert rows == init + [rows[|rows| - 1]];
      SelectAll(init, w);
    }
  }

  /** Selecting twice is selecting once with the narrower clause. */
  lemma {:induction false} SelectNarrow(rows: seq<FilterConfig>, wide: Where, narrow: Where)
    requires forall x :: x in rows && Holds(narrow, x) ==> Holds(wide, x)
    ensures Select(Select(rows, wide), narrow) == Select(rows, narrow)
    decreases |rows|
  {
    if rows != [] {
      var init := rows[..|rows| - 1];
      var last := rows[|rows| - 1];
      assert rows == init + [last];
      SelectNarrow(init, wide, narrow);
      var mid := Select(init, wide);
      if Holds(wide, last) {
        assert Select(rows, wide) == mid + [last];
        SelectAppend(mid, [last], narrow);
        assert [last][..0] == [];
      } else {
        assert Select(rows, wide) == mid;
      }
    }
  }

  /** Every row either belongs to `s` or does not. */
  lemma {:induction false} SelectSplits(rows: seq<FilterConfig>, s: int)
    ensures |Select(rows, OfStorage(s))| + |Select(rows, NotOfStorage(s))| == |rows|
    decreases |rows|
  {
    if rows != [] {
      SelectSplits(rows[..|rows| - 1], s);
    }
  }

  /** Removing the rows of `s` and adding rows of `s` leaves every query about
      another storage source as it was. */
  lemma OtherStorageUntouched(rows: seq<FilterConfig>, s: int, added: seq<FilterConfig>, w: Where, t: int)
    requires forall x :: x in added ==> x.storageId == Some(s)
    requires ScopedTo(w, t) && t != s
    ensures Select(Select(rows, NotOfStorage(s)) + added, w) == Select(rows, w)
  {
    SelectAppend(Select(rows, NotOfStorage(s)), added, w);
    SelectNone(added, w);
    SelectNarrow(rows, NotOfStorage(s), w);
  }

  /** The rows the insert loop writes for `configs`: each config with its id
      cleared and then assigned by the table, and its owner set to `s`. */
  function Stamped(configs: seq<FilterConfig>, s: int, nextId: int): (r: seq<FilterConfig>)
    ensures |r| == |configs|
    ensures forall k :: 0 <= k < |r| ==>
      SameContent(r[k], configs[k]) && r[k].storageId == Some(s) && r[k].id == Some(nextId + k)
  {
    seq(|configs|, k requires 0 <= k < |configs| => configs[k].(id := Some(nextId + k), storageId := Some(s)))
  }

  lemma StampedCons(configs: seq<FilterConfig>, s: int, nextId: int)
    requires configs != []
    ensures Stamped(configs, s, nextId)
         == [configs[0].(id := Some(nextId), storageId := Some(s))] + Stamped(configs[1..], s, nextId + 1)
  {
  }

  /** The table after an insert and the next id the table will hand out. Ids
      are taken to come from an auto-increment counter. */
  datatype Inserted = Inserted(rows: seq<FilterConfig>, nextId: int)

  /** One insert: the row gets the next id and goes to the end of the table. */
  function Insert(rows: seq<FilterConfig>, nextId: int, row: FilterConfig): (r: Inserted)
    ensures |r.rows| == |rows| + 1 && r.nextId == nextId + 1
    ensures r.rows[|rows|].id == Some(nextId) && r.rows[|rows|].id.value < r.nextId
    ensures SameContent(r.rows[|rows|], row) && r.rows[|rows|].storageId == row.storageId
    ensures forall i :: 0 <= i < |rows| ==> r.rows[i] == rows[i]
  {
    Inserted(rows + [row.(id := Some(nextId))], nextId + 1)
  }

  /** The insert loop: for each config in order, clear its id, set its owner to
      `s`, insert it. */
  function InsertAll(rows: seq<FilterConfig>, nextId: int, s: int, configs: seq<FilterConfig>): (r: Inserted)
    ensures r.rows == rows + Stamped(configs, s, nextId)
    ensures r.nextId == nextId + |configs|
    decreases |configs|
  {
    if configs == [] then
      Inserted(rows, nextId)
    else
      var row := configs[0].(id := None, storageId := Some(s));
      var first := Insert(rows, nextId, row);
      var r := InsertAll(first.rows, first.nextId, s, configs[1..]);
      assert row.(id := Some(nextId)) == configs[0].(id := Some(nextId), storageId := Some(s));
      StampedCons(configs, s, nextId);
      assert r.rows == rows + ([row.(id := Some(nextId))] + Stamped(configs[1..], s, nextId + 1));
      r
  }

  /** Every stored row has an owner and an id below the counter, and no two
      rows share an id. */
  ghost predicate WellFormed(rows: seq<FilterConfig>, nextId: int)
  {
    && (forall x :: x in rows ==> x.storageId.Some? && x.id.Some? && x.id.value < nextId)
    && DistinctIds(rows)
  }

  lemma InsertAllKeepsWellFormed(rows: seq<FilterConfig>, nextId: int, s: int, configs: seq<FilterConfig>)
    requires WellFormed(rows, nextId)
    ensures var r := InsertAll(rows, nextId, s, configs); WellFormed(r.rows, r.nextId)
  {
  }

  /** A row stamped onto the end of a well-formed table keeps its config's
      content, gets the owner `s`, and has an id no row of the table has. */
  lemma AppendedCopyIsFresh(rows: seq<FilterConfig>, nextId: int, configs: seq<FilterConfig>, s: int, k: int)
    requires WellFormed(rows, nextId)
    requires 0 <= k < |configs|
    ensures var now := rows + Stamped(configs, s, nextId);
      && |now| == |rows| + |configs|
      && SameContent(now[|rows| + k], configs[k])
      && now[|rows| + k].storageId == Some(s)
      && forall x :: x in rows ==> x.id != now[|rows| + k].id
  {
    assert (rows + Stamped(configs, s, nextId))[|rows| + k] == Stamped(configs, s, nextId)[k];
  }

  /** No two rows of `rows` share an id. */
  ghost predicate DistinctIds(rows: seq<FilterConfig>)
  {
    forall i, j :: 0 <= i < j < |rows| ==> rows[i].id != rows[j].id
  }

  /** A row whose id no earlier row has keeps the ids distinct. */
  lemma DistinctSnoc(r: seq<FilterConfig>, last: FilterConfig)
    requires DistinctIds(r)
    requires forall x :: x in r ==> x.id != last.id
    ensures DistinctIds(r + [last])
  {
    forall i, j | 0 <= i < j < |r + [last]|
      ensures (r + [last])[i].id != (r + [last])[j].id
    {
      if j == |r| {
        assert (r + [last])[i] == r[i];
      }
    }
  }

  /** The last row of a table with distinct ids has an id no earlier row has. */
  lemma LastIdIsNew(rows: seq<FilterConfig>)
    requires DistinctIds(rows) && rows != []
    ensures forall x :: x in rows[..|rows| - 1] ==> x.id != rows[|rows| - 1].id
  {
    forall x | x in rows[..|rows| - 1]
      ensures x.id != rows[|rows| - 1].id
    {
      var p :| 0 <= p < |rows| - 1 && rows[..|rows| - 1][p] == x;
      assert rows[p] == x;
    }
  }

  lemma {:induction false} SelectKeepsDistinct(rows: seq<FilterConfig>, w: Where)
    requires DistinctIds(rows)
    ensures DistinctIds(Select(rows, w))
    decreases |rows|
  {
    if rows != [] {
      var init := rows[..|rows| - 1];
      var last := rows[|rows| - 1];
      assert rows == init + [last];
      assert DistinctIds(init) by {
        forall i, j | 0 <= i < j < |init|
          ensures init[i].id != init[j].id
        {
          assert init[i] == rows[i] && init[j] == rows[j];
        }
      }
      SelectKeepsDistinct(init, w);
      if Holds(w, last) {
        LastIdIsNew(rows);
        DistinctSnoc(Select(init, w), last);
      }
    }
  }

  lemma SelectKeepsWellFormed(rows: seq<FilterConfig>, nextId: int, w: Where)
    requires WellFormed(rows, nextId)
    ensures WellFormed(Select(rows, w), nextId)
  {
    SelectKeepsDistinct(rows, w);
  }
}
